=== FILE: README.md ===
# Offline request queue of the Sunbird sync plugin, in Dafny

This project models the core of the Cordova sync plugin for Android. Callers
enqueue HTTP requests into a stored queue. A drain later replays them against
the server, lowest priority value first, and publishes the outcome to
subscribers. The model covers four things:

- the queue entry and its ordering (`NetworkQueueModel`);
- the in-memory priority index over the stored rows (`NetworkQueueImpl`);
- the drain loop, the clock-skew check after telemetry uploads, the event
  fan-out and the enqueue path (`SyncPlugin`).

Everything is a pure function over immutable values:

- `Store.Store` stands for the `DbService` store. It holds the queue rows in
  table order and the key/value settings table.
- `PriorityIndex.Queue` pairs the index, an insertion-ordered `seq<Entry>`,
  with that store.
- `Drain.Plugin` adds the `isSyncing` flag and the subscribers
  (`Events.Publisher`).

The transport and the clock are inputs. Each turn of the drain loop consumes
one `Drain.Exchange`: the response (`None` for `null`) and the time "now". The
drain is given a finite list of exchanges. It reports `OutOfFuel` when the
list ends before the loop does, because the loop itself need not terminate.

JSON text is not parsed or printed. A stored `request` or `config` string is
represented by the object it parses to, or by a "malformed" constructor for
text that `new JSONObject(...)` rejects. The columns of a row are held as the
`opt...` readers return them. The `ets` field of a response is held as
`Long.valueOf` reads it, with `None` for a failure.

The model follows the code, including where its behaviour is not what a
reader of the plugin's interface would expect:

- `seed` appends to the index and never clears it. A drain that halts on a
  network error leaves entries indexed, and the next drain indexes them a
  second time (`Drain.ResyncAfterNetworkErrorIndexesTwice`).
- The ordering looks at priority only, and a `java.util.PriorityQueue` picks
  among equal priorities by its heap layout. `PriorityIndex.HeadPos` fixes a
  different tie-break: the first least-priority entry in insertion order.
  `Peek`, `Dequeue` and the drain's contracts promise only "an entry of least
  priority", which holds of the heap's choice too.
- Only 2xx, 400 and -3 are handled. `dequeue` always deletes the entry's rows.
  The only success event is `{syncedEventCount}`. Any other status, and a
  `null` response, leaves the entry in place, so the loop retries it for ever
  (`Drain.UnhandledStatusLivelocks`).
- The clock-skew check is keyed on the request path containing "telemetry". It
  runs before the status is looked at, for every status. It stores only a
  positive offset above one day.
  - `serverTime - now` is Java `long` arithmetic, so it wraps. A server time
    far in the past is then stored as a large positive offset
    (`Drain.SkewWrapsForServerTimeFarInThePast`).
- `seed` calls the entry constructor with six arguments, but the entry class
  only declares a seven-argument one (with `type`). The model follows the call
  site: an entry carries no type, and nothing dispatches on one.
- `optString("config")` never yields `null`. So a seeded entry always has a
  config, and `getConfig` can only return an object or throw. When it throws
  (a missing config becomes `""`, which does not parse), the exception leaves
  the whole drain after the head was dequeued. `isSyncing` then stays `true`
  (`Drain.SyncNetworkQueue`, exit `Aborted`).
- `isSyncing` is raised inside the loop, so a drain that finds nothing indexed
  never raises it. Only `enqueue` consults it. The explicit "sync" action
  starts a drain unconditionally.

## Model

| member | source | states |
|---|---|---|
| Common.SubLong | src/android/org/sunbird/sync/SyncPlugin.java:77 | Java `long` subtraction: congruent to the true difference modulo 2^64, and equal to it whenever it fits in a `long` |
| Common.AbsLong | src/android/org/sunbird/sync/SyncPlugin.java:78 | `Math.abs(long)` is the non-negative magnitude, except for the most negative `long`, which it returns unchanged |
| Common.OptBoolean | src/android/org/sunbird/sync/SyncPlugin.java:111 | `optBoolean` is true only for a present boolean or string value; a boolean reads as itself; a string reads true exactly when it is "true" in any case |
| Common.ContainsIffOccurs | src/android/org/sunbird/sync/SyncPlugin.java:103 | `path.contains(sub)` holds exactly when `sub` occurs at some position of the path |
| Common.EqualsIgnoreCaseOnAscii | src/android/org/sunbird/sync/SyncPlugin.java:69 | on ASCII text, `equalsIgnoreCase("false")` is equality after lower-casing; outside ASCII, Java's extra folds (long s, Kelvin sign, dotted/dotless i) also match |
| Common.Decimal | src/android/org/sunbird/sync/SyncPlugin.java:82 | `String.valueOf` of a non-negative offset is a non-empty run of decimal digits without a leading zero |
| Common.DecimalRoundTrip | src/android/org/sunbird/sync/SyncPlugin.java:82 | the stored decimal text of an offset reads back as that offset |
| QueueEntry.GetId | src/android/org/sunbird/sync/model/NetworkQueueModel.java:30-32 | `getId` is the entry's msg_id, the key its store row is deleted by (see `PriorityIndex.DequeueDeletesHeadRow`) |
| QueueEntry.GetConfig | src/android/org/sunbird/sync/model/NetworkQueueModel.java:54-59 | returns null exactly when the stored config is null, throws exactly when the text is not a JSON object, and otherwise returns the parsed object |
| QueueEntry.CompareTo | src/android/org/sunbird/sync/model/NetworkQueueModel.java:62-73 | -1 exactly when this priority is smaller, 1 exactly when it is larger, 0 exactly when the priorities are equal |
| QueueEntry.CompareToIgnoresOtherFields | src/android/org/sunbird/sync/model/NetworkQueueModel.java:62-73 | no field other than priority affects the comparison, so ties are not broken by timestamp or id |
| QueueEntry.CompareToAntisymmetric | src/android/org/sunbird/sync/model/NetworkQueueModel.java:62-73 | swapping the two entries negates the result |
| QueueEntry.PrecedesIsTotalPreorder | src/android/org/sunbird/sync/model/NetworkQueueModel.java:62-73 | "compares at most 0" is reflexive, transitive and total |
| QueueEntry.TiesBetweenDistinctEntries | src/android/org/sunbird/sync/model/NetworkQueueModel.java:62-73 | every entry has a distinct entry, with another msg_id, that ties with it: `compareTo` leaves ties between different requests unresolved |
| Store.DeleteRows | src/android/org/sunbird/sync/db/DbService.java:13 | deleting by id leaves no copy of a row with that msg_id and every copy of every other row |
| Store.DeleteRowsKeepsOrder | src/android/org/sunbird/sync/db/DbService.java:13 | the surviving rows keep their table order: deletion distributes over concatenation, which with the copy counts fixes the result |
| Store.Delete | src/android/org/sunbird/sync/queue/NetworkQueueImpl.java:60 | a delete leaves no copy of a row with that msg_id, every copy of every other row, and the settings table untouched |
| Store.ReadFirst | src/android/org/sunbird/sync/SyncPlugin.java:65-68 | the flag lookup yields the value of the first settings row with the key, or nothing when no row has it |
| Store.ReadFirstAfterAppend | src/android/org/sunbird/sync/SyncPlugin.java:65-83 | appending a settings row leaves the first value of every key unchanged, unless the key was absent and the new row carries it |
| PriorityIndex.ParseRow | src/android/org/sunbird/sync/queue/NetworkQueueImpl.java:30-46 | a row yields an entry exactly when its request text is an object with a body and its timestamp is a number; the entry takes id from msg_id, priority from priority, eventCount from item_count, config from the row's config, and host, path, type, headers and serializer from the request text with the stored body |
| PriorityIndex.Seed | src/android/org/sunbird/sync/queue/NetworkQueueImpl.java:25-53 | seeding keeps every indexed entry and appends the parsed rows in order; if row i fails, rows before i stay added and none from i on is added |
| PriorityIndex.SeedStopsAtFailure | src/android/org/sunbird/sync/queue/NetworkQueueImpl.java:29-52 | a row that fails to parse ends the seed: no row at or after it is indexed |
| PriorityIndex.SeedAllParse | src/android/org/sunbird/sync/queue/NetworkQueueImpl.java:25-53 | when all rows parse, the index grows by exactly one entry per row, after the entries already there |
| PriorityIndex.SeedTwiceDuplicates | src/android/org/sunbird/sync/queue/NetworkQueueImpl.java:17-47 | because seeding never clears, seeding twice from the same rows indexes each of their entries at least twice |
| PriorityIndex.HeadPos | src/android/org/sunbird/sync/queue/NetworkQueueImpl.java:69-70 | the head position holds an entry of least priority; the model breaks ties by taking the first such entry in insertion order, which the heap need not do |
| PriorityIndex.Peek | src/android/org/sunbird/sync/queue/NetworkQueueImpl.java:68-71 | peek is null exactly on an empty index, and otherwise an indexed entry whose priority is at most every other's |
| PriorityIndex.Dequeue | src/android/org/sunbird/sync/queue/NetworkQueueImpl.java:56-66 | on a non-empty index, removes exactly one copy of the peeked head and deletes the rows with its msg_id (the `getId` key), leaving the settings unchanged; on an empty index nothing changes; the result is always null |
| PriorityIndex.DequeueDeletesHeadRow | src/android/org/sunbird/sync/queue/NetworkQueueImpl.java:56-66 | a dequeue deletes the stored row the head was seeded from, because `getId` is that row's msg_id |
| PriorityIndex.GetSize | src/android/org/sunbird/sync/queue/NetworkQueueImpl.java:74-76 | `getSize` counts the indexed entries, duplicates included |
| PriorityIndex.GetSizeTracksSeedAndDequeue | src/android/org/sunbird/sync/queue/NetworkQueueImpl.java:25-76 | the size grows by one per parsed row a seed adds and shrinks by one per dequeue from a non-empty index |
| PriorityIndex.IsEmpty | src/android/org/sunbird/sync/queue/NetworkQueueImpl.java:73-81 | isEmpty holds exactly when getSize is 0, that is when nothing is indexed |
| Events.Fanout | src/android/org/sunbird/sync/SyncPlugin.java:172-177 | one delivery of the event per handler, in the handlers' order |
| Events.ConsumeEvents | src/android/org/sunbird/sync/SyncPlugin.java:167-180 | with no handler or no live event nothing changes and the event is kept; otherwise each handler gets the same event in list order and the live event becomes null |
| Events.Subscribe | src/android/org/sunbird/sync/SyncPlugin.java:56-58 | a subscription appends the handler and touches neither the live event nor past deliveries |
| Events.SubscriberReceivesNextPublish | src/android/org/sunbird/sync/SyncPlugin.java:56-58 | a handler registered before a publish receives that event |
| Events.ConsumeEventsIsIdempotent | src/android/org/sunbird/sync/SyncPlugin.java:167-180 | a second consume delivers nothing; after delivery to at least one handler no event is live |
| Events.Publish | src/android/org/sunbird/sync/SyncPlugin.java:118-120 | setting an event and consuming it appends exactly one copy per subscriber and nothing else; without subscribers the event stays live |
| Events.SuccessivePublishesDeliverInOrder | src/android/org/sunbird/sync/SyncPlugin.java:107-128 | with subscribers, two turns' events reach every subscriber, the earlier one first, and none stays live |
| Drain.RegistrationPending | src/android/org/sunbird/sync/SyncPlugin.java:65-69 | the skew check is armed exactly when the first settings row with the registration key reads "false" in any case |
| Drain.SkewCheckKeepsRegistrationPending | src/android/org/sunbird/sync/SyncPlugin.java:64-92 | recording an offset never changes whether the check is armed, so every later upload that finds the server ahead appends another offset row |
| Drain.OffsetRowInQueueTableStopsSeed | src/android/org/sunbird/sync/queue/NetworkQueueImpl.java:29-52 | were the offset row written to the queue table, its missing request would stop every seed at it |
| Drain.AllowedOffset | src/android/org/sunbird/sync/SyncPlugin.java:77-79 | the kept offset is positive exactly when the wrapped difference exceeds one day, and is then that difference |
| Drain.PostProcessTelemetrySync | src/android/org/sunbird/sync/SyncPlugin.java:64-92 | stores key telemetry_log_min_allowed_offset_key with the decimal offset exactly when the flag reads "false" in any case, a server time was read, and it leads now by more than 86400000 ms; otherwise nothing changes; the offset row goes to the settings table, so queue rows are never touched |
| Drain.SkewRecordedOnlyAhead | src/android/org/sunbird/sync/SyncPlugin.java:75-84 | without overflow, a record is made exactly when registration is pending and serverTime - now > 86400000, its value reads back as serverTime - now, and a server behind the clock records nothing |
| Drain.SkewWrapsForServerTimeFarInThePast | src/android/org/sunbird/sync/SyncPlugin.java:77-79 | with the most negative server time and now = 1 the difference wraps to the largest long, which is stored |
| Drain.AfterTelemetryHook | src/android/org/sunbird/sync/SyncPlugin.java:103-105 | post-processing runs exactly for paths containing "telemetry", before the status is examined, and never touches queue rows |
| Drain.PublishesResult | src/android/org/sunbird/sync/SyncPlugin.java:110-111 | a 2xx turn publishes exactly when the stored config is an object whose "shouldPublishResult" reads true |
| Drain.DrainStep | src/android/org/sunbird/sync/SyncPlugin.java:99-128 | 2xx removes the head and its rows and publishes syncedEventCount iff the config asks (an unreadable config aborts the drain); 400 removes the head and its rows and publishes BAD_REQUEST; -3 publishes NETWORK_ERROR and halts, keeping index and rows; anything else, or null, changes neither index, rows nor events |
| Drain.DrainLoop | src/android/org/sunbird/sync/SyncPlugin.java:99-129 | the loop sends only entries indexed when it began, first the head, in non-decreasing priority order; it stops normally only on an empty index |
| Drain.SyncNetworkQueue | src/android/org/sunbird/sync/SyncPlugin.java:94-136 | the drain sends only seeded entries, in priority order, and the index keeps only seeded entries; it sends something iff the seeded index is non-empty (and answers remain), and the first entry it sends is the seeded index's head; an empty seeded index ends normally with nothing sent and isSyncing cleared; it ends normally only with an empty index, halts only after a -3 answer to the last entry sent, and aborts only after a 2xx answer to a last entry whose config does not parse; isSyncing is false after a normal end or the -3 break and stays true after the abort |
| Drain.SuccessStepRemovesHead | src/android/org/sunbird/sync/SyncPlugin.java:108-115 | a 2xx turn removes exactly the head from the index and every row with its msg_id; it goes on exactly when the head's config parses, and then readable configs stay readable |
| Drain.AllSuccessNeverStops | src/android/org/sunbird/sync/SyncPlugin.java:99-129 | against an always-2xx transport, with every indexed config readable, the drain neither halts nor aborts |
| Drain.AllSuccessSendsWhatLeaves | src/android/org/sunbird/sync/SyncPlugin.java:99-129 | against an always-2xx transport, the entries sent plus those left are exactly the starting index: each entry leaves once, when sent, also when an unreadable config aborts the drain |
| Drain.AllSuccessEmptiesIndex | src/android/org/sunbird/sync/SyncPlugin.java:99-129 | against an always-2xx transport, with every indexed config readable, as many turns as indexed entries end the drain normally with an empty index; an unreadable config would abort it with entries still indexed |
| Drain.AllSuccessDeletesSentRows | src/android/org/sunbird/sync/SyncPlugin.java:108-109 | against an always-2xx transport, no row is left with the msg_id of a sent entry, also when an unreadable config aborts the drain |
| Drain.DrainLoopExits | src/android/org/sunbird/sync/SyncPlugin.java:99-131 | the loop ends normally only on an empty index, halts only after a -3 answer to the last entry sent, and aborts only after a 2xx answer to a last entry whose config does not parse |
| Drain.AllSuccessSyncSendsEverything | src/android/org/sunbird/sync/SyncPlugin.java:94-136 | with 2xx answers for at least every seeded entry and readable configs, a whole drain ends normally, clears isSyncing, empties the index, sends each seeded entry exactly once and leaves none of their rows |
| Drain.DeletedRowsStayDeleted | src/android/org/sunbird/sync/SyncPlugin.java:99-129 | no turn of the loop brings back a row with a deleted msg_id |
| Drain.UnhandledStatusLivelocks | src/android/org/sunbird/sync/SyncPlugin.java:101-128 | if every response is null or unhandled, every turn resends the same head and the index, rows and events never change |
| Drain.NetworkErrorAtOnceKeepsEverything | src/android/org/sunbird/sync/SyncPlugin.java:122-130 | a -3 on the first turn halts after one send, with the seeded index and the rows intact and isSyncing cleared |
| Drain.ResyncAfterNetworkErrorIndexesTwice | src/android/org/sunbird/sync/SyncPlugin.java:98-126 | after such a halt, the next drain's seed indexes each stored entry a second time |
| Enqueue.WellFormed | src/android/org/sunbird/sync/SyncPlugin.java:145-150 | the arguments every reader in `enqueue` accepts; `Enqueue.Enqueue` succeeds exactly on them |
| Enqueue.ComposeRow | src/android/org/sunbird/sync/SyncPlugin.java:148-154 | the stored row is the descriptor with its request's body set to the payload and every other field kept |
| Enqueue.Enqueue | src/android/org/sunbird/sync/SyncPlugin.java:141-165 | success exactly on well-formed arguments; on success, appends the composed row and touches nothing else; on error, changes nothing; starts a drain iff it succeeded, no drain is running and shouldSync is true |
| Enqueue.EnqueuedRowSeedsPayload | src/android/org/sunbird/sync/SyncPlugin.java:150-155 | the stored row parses back into an entry whose body is the payload and whose id, priority, event count and config are the descriptor's |
| Enqueue.EnqueueThenSeed | src/android/org/sunbird/sync/SyncPlugin.java:154-155 | when the earlier rows parse, the next seed from an empty index ends with the enqueued entry |

## Left out

- The Cordova bridge (`execute`, `initialize`, `CallbackContext`, `PluginResult`, the web view) is host I/O. Subscribers are a list of handler ids, and a publish delivers one copy per handler. The double send per handler (a kept result, then `success`) is not modelled. Neither is the bridge's refusal to deliver after a callback has finished.
- The thread pool and the unsynchronised `isSyncing` flag are concurrency. The flag is sequential state, and a started drain is reported by `Enqueue.Enqueue` rather than run.
- `DbServiceImpl` is not part of this model. The store is an abstract value, and its operations never fail. So the swallowed exception of a failing `delete` or `seed()` query, and an exception from `read` leaving the drain, are not modelled. Which table `insert` writes the offset row to is also not shown: `insert` takes no table name, and its other caller writes queue rows. The model keeps that row in the settings table. The contracts saying the queue rows are never touched (`Drain.PostProcessTelemetrySync`, `Drain.AfterTelemetryHook`, `Drain.DrainStep`) rest on that choice. Were the row written to the queue table, its missing `request` column would make every later seed stop at it (`Drain.OffsetRowInQueueTableStopsSeed`).
- `ApiService.process` is the transport. Its response is an input, with the body reduced to the `ets` value the skew check reads.
- JSON parsing and printing are abstracted as described above. Elements of the store's result that are not JSON objects (`getJSONObject` throwing) are not modelled.
- `System.currentTimeMillis` is the `now` field of each exchange.
- Logging and `printStackTrace` are left out.
- `getType`, `getTimestamp` and `toString` of the entry are never used by the core.
- `PriorityIndex.HeadPos`: among entries of equal priority the model sends the first one indexed, while the heap sends whichever its layout puts on top. The send order among equal priorities is therefore not the source's. For example, with priorities 1, 2, 2, 2, 2 added in that order and one poll, the heap's next head is the last 2 added and the model's is the first. Only `HeadPos`'s own third ensures fixes the tie-break; every other contract holds for any choice of a least-priority entry.
- `Drain.DrainLoop`: the loop may run for ever. The drain is bounded by the number of exchanges it is given, and a run cut short is reported as `OutOfFuel`.

=== FILE: common.dfy ===
/** Values shared by the whole model: optional values, Java's returned-or-thrown
    outcome, JSON values, Java's fixed-width integers and the few string
    operations of java.lang.String that the sync plugin relies on. */
module Common {

  /** Java's nullable reference: `None` stands for `null`. */
  datatype Option<+T> = None | Some(value: T)

  /** The exceptions the modelled code raises (and mostly swallows). */
  datatype Exception =
    | JSONException
    | NumberFormatException

  /** A Java call either returns a value or throws. */
  datatype Outcome<+T> = Returned(value: T) | Threw(ex: Exception)

  /** A JSON value as org.json holds it. */
  datatype Json =
    | JNull
    | JBool(b: bool)
    | JNumber(n: int)
    | JString(s: string)
    | JArray(items: seq<Json>)
    | JObject(fields: map<string, Json>)

  const TwoTo64: int := 0x1_0000_0000_0000_0000

  /** Java `int` and `long`. */
  type Int32 = x: int | -0x8000_0000 <= x < 0x8000_0000
  type Int64 = x: int | -0x8000_0000_0000_0000 <= x < 0x8000_0000_0000_0000

  const MinLong: Int64 := -0x8000_0000_0000_0000
  const MaxLong: Int64 := 0x7FFF_FFFF_FFFF_FFFF

  /** Java `a - b` on `long`: the mathematical difference, wrapped modulo 2^64. */
  function SubLong(a: Int64, b: Int64): (r: Int64)
    ensures (r - (a - b)) % TwoTo64 == 0
    ensures MinLong <= a - b <= MaxLong ==> r == a - b
  {
    var d := a - b;
    if d < MinLong then d + TwoTo64
    else if d > MaxLong then d - TwoTo64
    else d
  }

  /** Java's `Math.abs(long)`, whose result for the most negative value is that value itself. */
  function AbsLong(x: Int64): (r: Int64)
    ensures x != MinLong ==> r >= 0 && (r == x || r == -x)
    ensures x == MinLong ==> r == x
  {
    if x == MinLong then x else if x < 0 then -x else x
  }

  /** org.json's `optBoolean(key)`: true for the boolean true or for the
      string "true" in any case; false for everything else, a missing key included. */
  function OptBoolean(fields: map<string, Json>, key: string): (r: bool)
    ensures r ==> key in fields && (fields[key].JBool? || fields[key].JString?)
    ensures key in fields && fields[key].JBool? ==> (r <==> fields[key].b)
    ensures key in fields && fields[key].JString? ==>
      (r <==> |fields[key].s| == 4 && forall i :: 0 <= i < 4 ==> LowerAscii(fields[key].s[i]) == "true"[i])
  {
    if key !in fields then false
    else match fields[key]
      case JBool(b) => b
      case JString(s) => EqualsIgnoreCase(s, "true")
      case _ => false
  }

  predicate IsLowerAsciiLetter(c: char) {
    'a' <= c <= 'z'
  }

  predicate IsLowerAsciiWord(lit: string) {
    forall i :: 0 <= i < |lit| ==> IsLowerAsciiLetter(lit[i])
  }

  /** Whether String.equalsIgnoreCase pairs `c` with the lower-case ASCII letter `t`.
      Besides the two ASCII cases, Java's per-character rule (compare upper-case
      forms, then the lower-case forms of those) also pairs LATIN SMALL LETTER
      LONG S with 's', KELVIN SIGN with 'k', and the dotted capital and dotless
      small I with 'i'. */
  predicate FoldsTo(c: char, t: char)
    requires IsLowerAsciiLetter(t)
  {
    || c == t
    || c as int == t as int - 32
    || (t == 's' && c == '\U{017F}')
    || (t == 'k' && c == '\U{212A}')
    || (t == 'i' && (c == '\U{0130}' || c == '\U{0131}'))
  }

  /** `s.equalsIgnoreCase(lit)` for a lower-case ASCII literal. */
  predicate EqualsIgnoreCase(s: string, lit: string)
    requires IsLowerAsciiWord(lit)
  {
    |s| == |lit| && forall i :: 0 <= i < |s| ==> FoldsTo(s[i], lit[i])
  }

  predicate IsAscii(s: string) {
    forall i :: 0 <= i < |s| ==> s[i] as int < 128
  }

  function LowerAscii(c: char): char {
    if 'A' <= c <= 'Z' then (c as int + 32) as char else c
  }

  /** On ASCII text, Java's case-insensitive comparison with a lower-case word
      is plain equality after lower-casing. */
  lemma EqualsIgnoreCaseOnAscii(s: string, lit: string)
    requires IsLowerAsciiWord(lit) && IsAscii(s)
    ensures EqualsIgnoreCase(s, lit) <==> |s| == |lit| && forall i :: 0 <= i < |s| ==> LowerAscii(s[i]) == lit[i]
  {
  }

  /** `s.contains(sub)`. */
  predicate Contains(s: string, sub: string)
    decreases |s|
  {
    |sub| <= |s| && (s[..|sub|] == sub || Contains(s[1..], sub))
  }

  /** `sub` occurs in `s` starting at position `k`. */
  predicate OccursAt(s: string, sub: string, k: nat) {
    k + |sub| <= |s| && s[k..k + |sub|] == sub
  }

  /** `Contains` holds exactly when `sub` occurs at some position of `s`. */
  lemma {:induction false} ContainsIffOccurs(s: string, sub: string)
    ensures Contains(s, sub) <==> exists k: nat :: OccursAt(s, sub, k)
    decreases |s|
  {
    if |sub| <= |s| && s[..|sub|] == sub {
      assert OccursAt(s, sub, 0);
    } else if |sub| <= |s| {
      ContainsIffOccurs(s[1..], sub);
      if exists k: nat :: OccursAt(s, sub, k) {
        var k: nat :| OccursAt(s, sub, k);
        assert k != 0;
        assert OccursAt(s[1..], sub, k - 1);
      }
      if Contains(s[1..], sub) {
        var k: nat :| OccursAt(s[1..], sub, k);
        assert OccursAt(s, sub, k + 1);
      }
    }
  }

  function DigitChar(d: nat): (c: char)
    requires d < 10
    ensures '0' <= c <= '9'
  {
    ('0' as int + d) as char
  }

  predicate IsDigits(s: string) {
    forall i :: 0 <= i < |s| ==> '0' <= s[i] <= '9'
  }

  /** `String.valueOf(n)` for a non-negative `long`: its decimal digits, no leading zero. */
  function Decimal(n: nat): (s: string)
    ensures |s| > 0 && IsDigits(s)
    ensures n > 0 ==> s[0] != '0'
    decreases n
  {
    if n < 10 then [DigitChar(n)] else Decimal(n / 10) + [DigitChar(n % 10)]
  }

  /** The number a string of decimal digits denotes (`Long.valueOf` on such text). */
  function DecimalValue(s: string): nat
    requires IsDigits(s)
    decreases |s|
  {
    if |s| == 0 then 0 else DecimalValue(s[..|s| - 1]) * 10 + (s[|s| - 1] as int - '0' as int)
  }

  /** Reading back the decimal text of a number gives that number. */
  lemma {:induction false} DecimalRoundTrip(n: nat)
    ensures DecimalValue(Decimal(n)) == n
    decreases n
  {
    if n >= 10 {
      DecimalRoundTrip(n / 10);
      var s := Decimal(n);
      assert s[..|s| - 1] == Decimal(n / 10);
    }
  }

  /** A non-empty sequence counts its first element once plus its tail. */
  lemma FirstAndRestMultiset<T>(s: seq<T>)
    requires |s| > 0
    ensures multiset(s) == multiset{s[0]} + multiset(s[1..])
  {
    assert s == [s[0]] + s[1..];
  }

  /** Cutting out position k removes exactly one copy of the element there. */
  lemma RemoveAtMultiset<T>(s: seq<T>, k: nat)
    requires k < |s|
    ensures multiset(s[..k] + s[k + 1..]) == multiset(s) - multiset{s[k]}
  {
    assert s == s[..k] + [s[k]] + s[k + 1..];
  }
}

=== FILE: drain.dfy ===
/** The drain of the offline queue (SyncPlugin.syncNetworkQueue) and the clock
    skew check it runs after telemetry uploads (postProcessTelemetrySync).
    The transport and the clock are inputs: each turn of the loop consumes one
    `Exchange`, the response the transport gave and the time it was read at.
    The loop can run forever, so the drain is given a finite list of exchanges
    and reports `OutOfFuel` when that list ends before the loop does. */
module Drain {
  import opened Common
  import opened QueueEntry
  import opened Store
  import opened PriorityIndex
  import opened Events

  /** A transport response. Its body is abstracted to the server time in its
      "ets" field as `Long.valueOf` reads it: `None` when the body is not a JSON
      object or the text is not a `long`. */
  datatype Response = Response(status: int, ets: Option<Int64>)

  /** One turn's environment: the response (`None` for `null`) and the clock. */
  datatype Exchange = Exchange(response: Option<Response>, now: Int64)

  /** The plugin's state: the queue with its store, the `isSyncing` flag, the subscribers. */
  datatype Plugin = Plugin(queue: Queue, isSyncing: bool, events: Publisher)

  /** How one turn of the loop ends: go on, `break` on a network error, or leave
      through the exception handler around the loop. */
  datatype Step = Continue(plugin: Plugin) | Halt(plugin: Plugin) | Abort(plugin: Plugin)

  datatype Exit = Exhausted | Halted | Aborted | OutOfFuel

  /** A drain's end: how it left, the state it left, the entries it sent in order. */
  datatype DrainRun = DrainRun(exit: Exit, plugin: Plugin, sent: seq<Entry>)

  const RegisteredKey := "last_synced_device_register_is_successful"
  const OffsetKey := "telemetry_log_min_allowed_offset_key"
  const TelemetryMarker := "telemetry"
  const PublishFlag := "shouldPublishResult"

  /** One day in milliseconds. */
  const DayMillis: Int64 := 86400000

  /** The stored registration flag exists and reads "false" in any case: only
      the first settings row with the flag's key is looked at. */
  function RegistrationPending(store: Store): (r: bool)
    ensures r <==> var k := FirstKeyPos(store.settings, RegisteredKey);
      k < |store.settings| && EqualsIgnoreCase(store.settings[k].value, "false")
  {
    var v := ReadFirst(store.settings, RegisteredKey);
    v.Some? && EqualsIgnoreCase(v.value, "false")
  }

  /** Recording an offset never settles the registration flag, so every later
      telemetry upload that finds the server ahead records another offset row. */
  lemma SkewCheckKeepsRegistrationPending(store: Store, response: Option<Response>, now: Int64)
    ensures RegistrationPending(PostProcessTelemetrySync(store, response, now)) == RegistrationPending(store)
    ensures RecordsSkew(store, response, now) ==>
      var once := PostProcessTelemetrySync(store, response, now);
      |PostProcessTelemetrySync(once, response, now).settings| == |store.settings| + 2
  {
    var r := PostProcessTelemetrySync(store, response, now);
    if RecordsSkew(store, response, now) {
      var s := Setting(OffsetKey, Decimal(SubLong(response.value.ets.value, now)));
      assert OffsetKey != RegisteredKey;
      ReadFirstAfterAppend(store.settings, s, RegisteredKey);
      assert r.settings == store.settings + [s];
    }
  }

  /** The offset worth keeping: the wrapped difference when its absolute value
      exceeds a day, zero otherwise. Only a positive result is ever stored. */
  function AllowedOffset(serverTime: Int64, now: Int64): (r: Int64)
    ensures r > 0 <==> SubLong(serverTime, now) > DayMillis
    ensures r > 0 ==> r == SubLong(serverTime, now)
  {
    var current := SubLong(serverTime, now);
    if AbsLong(current) > DayMillis then current else 0
  }

  /** The skew check records an offset: registration is pending, the response
      carries a server time, and that time runs ahead of `now` by over a day. */
  predicate RecordsSkew(store: Store, response: Option<Response>, now: Int64) {
    && RegistrationPending(store)
    && response.Some?
    && response.value.ets.Some?
    && SubLong(response.value.ets.value, now) > DayMillis
  }

  /** `postProcessTelemetrySync`: stores the offset under its key when
      `RecordsSkew` holds and changes nothing otherwise; parse failures are
      swallowed. The offset row goes to the settings table, so the queue rows are
      never touched; `OffsetRowInQueueTableStopsSeed` shows what the other
      table would do. */
  function PostProcessTelemetrySync(store: Store, response: Option<Response>, now: Int64): (r: Store)
    ensures r.rows == store.rows
    ensures !RecordsSkew(store, response, now) ==> r == store
    ensures RecordsSkew(store, response, now) ==>
      r.settings == store.settings + [Setting(OffsetKey, Decimal(SubLong(response.value.ets.value, now)))]
  {
    if RegistrationPending(store) && response.Some? && response.value.ets.Some? then
      var allowed := AllowedOffset(response.value.ets.value, now);
      if allowed > 0 then store.(settings := store.settings + [Setting(OffsetKey, Decimal(allowed))])
      else store
    else store
  }

  /** When `serverTime - now` does not overflow, a negative drift is never
      recorded, and the recorded text reads back as exactly `serverTime - now`. */
  lemma SkewRecordedOnlyAhead(store: Store, serverTime: Int64, now: Int64, status: int)
    requires MinLong <= serverTime - now <= MaxLong
    ensures var response := Some(Response(status, Some(serverTime)));
      var r := PostProcessTelemetrySync(store, response, now);
      && (r != store <==> RegistrationPending(store) && serverTime - now > DayMillis)
      && (r != store ==> r.settings[|store.settings|].key == OffsetKey
                          && DecimalValue(r.settings[|store.settings|].value) == serverTime - now)
      && (serverTime <= now ==> r == store)
  {
    var response := Some(Response(status, Some(serverTime)));
    if RecordsSkew(store, response, now) {
      DecimalRoundTrip(serverTime - now);
      assert |PostProcessTelemetrySync(store, response, now).settings| == |store.settings| + 1;
    }
  }

  /** The subtraction wraps: a server time far enough in the past becomes a large
      positive offset, and is recorded although the server is behind. */
  lemma SkewWrapsForServerTimeFarInThePast(store: Store, status: int)
    requires RegistrationPending(store)
    ensures PostProcessTelemetrySync(store, Some(Response(status, Some(MinLong))), 1).settings
            == store.settings + [Setting(OffsetKey, Decimal(MaxLong))]
  {
  }

  /** The offset row as `seed()` would read it were it written to the queue
      table: it has none of the queue's columns, so the readers yield "" and 0. */
  const OffsetAsQueueRow := Row("", 0, 0, None, MalformedConfig, MalformedRequest)

  /** Were the offset row in the queue table, no seed would index any row after it. */
  lemma OffsetRowInQueueTableStopsSeed(index: seq<Entry>, before: seq<Row>, after: seq<Row>)
    ensures |Seed(index, before + [OffsetAsQueueRow] + after)| <= |index| + |before|
  {
    var rows := before + [OffsetAsQueueRow] + after;
    assert rows[|before|] == OffsetAsQueueRow;
    SeedStopsAtFailure(index, rows, |before|);
  }

  /** The post-processing that runs before the status check, for every status,
      when the entry's path contains "telemetry". */
  function AfterTelemetryHook(head: Entry, store: Store, response: Option<Response>, now: Int64): (r: Store)
    ensures r.rows == store.rows
    ensures !Contains(head.request.path, TelemetryMarker) ==> r == store
    ensures Contains(head.request.path, TelemetryMarker) ==> r == PostProcessTelemetrySync(store, response, now)
  {
    if Contains(head.request.path, TelemetryMarker) then PostProcessTelemetrySync(store, response, now) else store
  }

  predicate IsSuccess(response: Option<Response>) {
    response.Some? && 200 <= response.value.status < 300
  }

  predicate IsBadRequest(response: Option<Response>) {
    response.Some? && response.value.status == 400
  }

  predicate IsNetworkError(response: Option<Response>) {
    response.Some? && response.value.status == -3
  }

  /** A null response or a status no branch handles. */
  predicate IsUnhandled(response: Option<Response>) {
    !IsSuccess(response) && !IsBadRequest(response) && !IsNetworkError(response)
  }

  /** The entry's config parses and asks for its result to be published: the
      stored config is an object whose "shouldPublishResult" reads true. */
  function PublishesResult(e: Entry): (r: bool)
    ensures r <==> e.config.Some? && e.config.value.ConfigJson? && OptBoolean(e.config.value.fields, PublishFlag)
  {
    match GetConfig(e)
    case Returned(Some(fields)) => OptBoolean(fields, PublishFlag)
    case _ => false
  }

  /** One turn of the drain loop on a non-empty index: peek the head, send it,
      run the telemetry hook, then act on the status. */
  function DrainStep(p: Plugin, response: Option<Response>, now: Int64): (r: Step)
    requires |p.queue.index| > 0
    ensures r.plugin.isSyncing
    ensures r.plugin.events.handlers == p.events.handlers
    ensures multiset(r.plugin.queue.index) <= multiset(p.queue.index)
    ensures var head := Peek(p.queue.index).value;
      r.plugin.queue.store.settings == AfterTelemetryHook(head, p.queue.store, response, now).settings
    ensures IsSuccess(response) ==>
      var head := Peek(p.queue.index).value;
      && !r.Halt?
      && (r.Abort? <==> head.config == Some(MalformedConfig))
      && multiset(r.plugin.queue.index) == multiset(p.queue.index) - multiset{head}
      && r.plugin.queue.store.rows == DeleteRows(p.queue.store.rows, head.msgId)
      && (r.Continue? && PublishesResult(head) ==>
            r.plugin.events == Publish(p.events, SyncedEventCount(head.eventCount)))
      && (r.Abort? || !PublishesResult(head) ==> r.plugin.events == p.events)
    ensures IsBadRequest(response) ==>
      var head := Peek(p.queue.index).value;
      && r.Continue?
      && multiset(r.plugin.queue.index) == multiset(p.queue.index) - multiset{head}
      && r.plugin.queue.store.rows == DeleteRows(p.queue.store.rows, head.msgId)
      && r.plugin.events == Publish(p.events, BadRequest)
    ensures IsNetworkError(response) ==>
      && r.Halt?
      && r.plugin.queue.index == p.queue.index
      && r.plugin.queue.store.rows == p.queue.store.rows
      && r.plugin.events == Publish(p.events, NetworkError)
    ensures IsUnhandled(response) ==>
      && r.Continue?
      && r.plugin.queue.index == p.queue.index
      && r.plugin.queue.store.rows == p.queue.store.rows
      && r.plugin.events == p.events
  {
    var head := Peek(p.queue.index).value;
    var store := AfterTelemetryHook(head, p.queue.store, response, now);
    var p1 := p.(isSyncing := true, queue := p.queue.(store := store));
    if IsSuccess(response) then
      var p2 := p1.(queue := Dequeue(p1.queue).queue);
      match GetConfig(head)
      case Threw(_) => Abort(p2)
      case Returned(config) =>
        if config.Some? && OptBoolean(config.value, PublishFlag) then
          Continue(p2.(events := Publish(p2.events, SyncedEventCount(head.eventCount))))
        else Continue(p2)
    else if IsBadRequest(response) then
      Continue(p1.(queue := Dequeue(p1.queue).queue, events := Publish(p1.events, BadRequest)))
    else if IsNetworkError(response) then
      Halt(p1.(events := Publish(p1.events, NetworkError)))
    else
      Continue(p1)
  }

  /** A sub-multiset has no element its super-multiset lacks. */
  lemma SubMultisetMembers(a: seq<Entry>, b: seq<Entry>)
    requires multiset(a) <= multiset(b)
    ensures forall e | e in a :: e in b
  {
    forall e | e in a ensures e in b {
      assert e in multiset(a);
    }
  }

  /** Entries listed in non-decreasing priority. */
  predicate InPriorityOrder(s: seq<Entry>) {
    forall i, j :: 0 <= i < j < |s| ==> s[i].priority <= s[j].priority
  }

  /** An entry of least priority, put in front of ordered entries drawn from the
      same index, keeps them ordered. */
  lemma PrependLeast(head: Entry, rest: seq<Entry>, index: seq<Entry>)
    requires IsLeast(head, index) && InPriorityOrder(rest)
    requires forall e | e in rest :: e in index
    ensures InPriorityOrder([head] + rest)
  {
    var s := [head] + rest;
    forall i, j | 0 <= i < j < |s| ensures s[i].priority <= s[j].priority {
      assert s[j] == rest[j - 1];
      if i > 0 {
        assert s[i] == rest[i - 1];
      } else {
        assert rest[j - 1] in index;
      }
    }
  }

  /** The `while (!isEmpty())` loop, one exchange per turn. Every entry it sends
      was indexed when it started, and the entries are sent in non-decreasing
      priority order. */
  function DrainLoop(p: Plugin, xs: seq<Exchange>): (run: DrainRun)
    ensures multiset(run.plugin.queue.index) <= multiset(p.queue.index)
    ensures forall e | e in run.sent :: e in p.queue.index
    ensures |run.sent| > 0 ==> |p.queue.index| > 0 && run.sent[0] == Peek(p.queue.index).value
    ensures InPriorityOrder(run.sent)
    ensures |run.sent| <= |xs|
    ensures |run.sent| == 0 <==> p.queue.index == [] || xs == []
    ensures |run.sent| == 0 ==> run.plugin == p
    ensures |run.sent| > 0 ==> run.plugin.isSyncing
    ensures run.exit == Exhausted ==> run.plugin.queue.index == []
    ensures run.exit == OutOfFuel ==> run.plugin.queue.index != [] && |run.sent| == |xs|
    ensures run.plugin.events.handlers == p.events.handlers
    decreases |xs|
  {
    if |p.queue.index| == 0 then DrainRun(Exhausted, p, [])
    else if |xs| == 0 then DrainRun(OutOfFuel, p, [])
    else
      var head := Peek(p.queue.index).value;
      match DrainStep(p, xs[0].response, xs[0].now)
      case Continue(next) =>
        var rest := DrainLoop(next, xs[1..]);
        SubMultisetMembers(next.queue.index, p.queue.index);
        PrependLeast(head, rest.sent, p.queue.index);
        DrainRun(rest.exit, rest.plugin, [head] + rest.sent)
      case Halt(next) => DrainRun(Halted, next, [head])
      case Abort(next) => DrainRun(Aborted, next, [head])
  }

  /** The loop's first turn: what the step returns decides the run. */
  lemma DrainLoopFirstTurn(p: Plugin, xs: seq<Exchange>)
    requires |p.queue.index| > 0 && |xs| > 0
    ensures var head := Peek(p.queue.index).value;
      var step := DrainStep(p, xs[0].response, xs[0].now);
      var run := DrainLoop(p, xs);
      && (step.Continue? ==> run == DrainLoop(step.plugin, xs[1..]).(sent := [head] + DrainLoop(step.plugin, xs[1..]).sent))
      && (step.Halt? ==> run == DrainRun(Halted, step.plugin, [head]))
      && (step.Abort? ==> run == DrainRun(Aborted, step.plugin, [head]))
  {
  }

  /** What the exits mean: a halt follows a -3 answer to the last entry sent,
      and an abort follows a 2xx answer to a last entry whose config does not
      parse; an exhausted run has emptied the index. */
  predicate ExitExplained(run: DrainRun, xs: seq<Exchange>) {
    && (run.exit == Exhausted ==> run.plugin.queue.index == [])
    && (run.exit == Halted ==> 0 < |run.sent| <= |xs| && IsNetworkError(xs[|run.sent| - 1].response))
    && (run.exit == Aborted ==>
          && 0 < |run.sent| <= |xs|
          && IsSuccess(xs[|run.sent| - 1].response)
          && run.sent[|run.sent| - 1].config == Some(MalformedConfig))
  }

  /** A turn halts only on -3, and aborts only on 2xx for a head whose config does not parse. */
  lemma StepExits(p: Plugin, x: Exchange)
    requires |p.queue.index| > 0
    ensures var r := DrainStep(p, x.response, x.now);
      && (r.Halt? ==> IsNetworkError(x.response))
      && (r.Abort? ==> IsSuccess(x.response) && Peek(p.queue.index).value.config == Some(MalformedConfig))
  {
  }

  /** Sending one more entry in front keeps a later run's exit explained, one exchange earlier. */
  lemma PrependKeepsExitExplained(head: Entry, rest: DrainRun, xs: seq<Exchange>)
    requires |xs| > 0 && |rest.sent| < |xs| && ExitExplained(rest, xs[1..])
    ensures ExitExplained(rest.(sent := [head] + rest.sent), xs)
  {
    var n := |rest.sent|;
    if n > 0 {
      assert xs[1..][n - 1] == xs[n];
      assert ([head] + rest.sent)[n] == rest.sent[n - 1];
    }
  }

  /** Every exit of the loop is explained by the exchange of its last turn. */
  lemma {:induction false} DrainLoopExits(p: Plugin, xs: seq<Exchange>)
    ensures ExitExplained(DrainLoop(p, xs), xs)
    decreases |xs|
  {
    if |p.queue.index| > 0 && |xs| > 0 {
      var head := Peek(p.queue.index).value;
      var step := DrainStep(p, xs[0].response, xs[0].now);
      DrainLoopFirstTurn(p, xs);
      StepExits(p, xs[0]);
      if step.Continue? {
        DrainLoopExits(step.plugin, xs[1..]);
        PrependKeepsExitExplained(head, DrainLoop(step.plugin, xs[1..]), xs);
      }
    }
  }

  /** `syncNetworkQueue`: seed, loop, then clear `isSyncing` on a normal exit or
      after the network-error `break`. An exception leaves the flag set. The flag
      is raised only inside the loop, so a drain that finds nothing indexed never
      raises it. */
  function SyncNetworkQueue(p: Plugin, xs: seq<Exchange>): (run: DrainRun)
    ensures var seeded := Seed(p.queue.index, p.queue.store.rows);
      && (forall e | e in run.sent :: e in seeded)
      && (|run.sent| > 0 <==> seeded != [] && xs != [])
    ensures multiset(run.plugin.queue.index) <= multiset(Seed(p.queue.index, p.queue.store.rows))
    ensures Seed(p.queue.index, p.queue.store.rows) == [] ==>
      run.exit == Exhausted && run.sent == [] && !run.plugin.isSyncing
    ensures |run.sent| > 0 ==> run.sent[0] == Peek(Seed(p.queue.index, p.queue.store.rows)).value
    ensures InPriorityOrder(run.sent)
    ensures ExitExplained(run, xs)
    ensures run.exit == Exhausted || run.exit == Halted ==> !run.plugin.isSyncing
    ensures run.exit == Aborted ==> run.plugin.isSyncing
    ensures run.exit == OutOfFuel && xs != [] ==> run.plugin.isSyncing
    ensures run.plugin.events.handlers == p.events.handlers
  {
    var seeded := p.(queue := p.queue.(index := Seed(p.queue.index, p.queue.store.rows)));
    DrainLoopExits(seeded, xs);
    var run := DrainLoop(seeded, xs);
    if run.exit == Exhausted || run.exit == Halted then run.(plugin := run.plugin.(isSyncing := false))
    else run
  }

  /** A 2xx turn never halts, and the index loses exactly the head. */
  lemma SuccessStepSendsHead(p: Plugin, x: Exchange)
    requires |p.queue.index| > 0 && IsSuccess(x.response)
    ensures var r := DrainStep(p, x.response, x.now);
      && !r.Halt?
      && multiset(r.plugin.queue.index) + multiset{Peek(p.queue.index).value} == multiset(p.queue.index)
  {
    var head := Peek(p.queue.index).value;
    assert head in multiset(p.queue.index);
  }

  /** Every indexed entry's config is readable. */
  predicate AllConfigsReadable(index: seq<Entry>) {
    forall e | e in index :: e.config != Some(MalformedConfig)
  }

  /** One 2xx turn removes the head from the index and its rows from the store;
      it goes on unless the head's config is unreadable, and readable configs
      stay readable. */
  lemma SuccessStepRemovesHead(p: Plugin, x: Exchange)
    requires |p.queue.index| > 0 && IsSuccess(x.response)
    ensures var head := Peek(p.queue.index).value;
      var r := DrainStep(p, x.response, x.now);
      && !r.Halt?
      && (r.Continue? <==> head.config != Some(MalformedConfig))
      && multiset(r.plugin.queue.index) + multiset{head} == multiset(p.queue.index)
      && |r.plugin.queue.index| == |p.queue.index| - 1
      && (forall e | e in r.plugin.queue.index :: e in p.queue.index)
      && (forall row | row in r.plugin.queue.store.rows :: row in p.queue.store.rows && row.msgId != head.msgId)
      && (AllConfigsReadable(p.queue.index) ==> r.Continue? && AllConfigsReadable(r.plugin.queue.index))
  {
    var head := Peek(p.queue.index).value;
    var r := DrainStep(p, x.response, x.now);
    assert head in multiset(p.queue.index);
    assert |multiset(r.plugin.queue.index)| == |multiset(p.queue.index)| - 1;
    SubMultisetMembers(r.plugin.queue.index, p.queue.index);
  }

  /** Against a transport that always answers 2xx, and with every config
      readable, the drain neither halts nor aborts. */
  lemma {:induction false} AllSuccessNeverStops(p: Plugin, xs: seq<Exchange>)
    requires forall i :: 0 <= i < |xs| ==> IsSuccess(xs[i].response)
    requires AllConfigsReadable(p.queue.index)
    ensures DrainLoop(p, xs).exit == Exhausted || DrainLoop(p, xs).exit == OutOfFuel
    decreases |xs|
  {
    if |p.queue.index| > 0 && |xs| > 0 {
      var head := Peek(p.queue.index).value;
      var step := DrainStep(p, xs[0].response, xs[0].now);
      var next := step.plugin;
      SuccessStepRemovesHead(p, xs[0]);
      AllSuccessNeverStops(next, xs[1..]);
      var rest := DrainLoop(next, xs[1..]);
      assert DrainLoop(p, xs) == DrainRun(rest.exit, rest.plugin, [head] + rest.sent);
    }
  }

  /** Against a transport that always answers 2xx, each turn sends and removes
      the current head, also on the turn an unreadable config aborts: the
      entries sent and the entries left together make up the starting index. */
  lemma {:induction false} AllSuccessSendsWhatLeaves(p: Plugin, xs: seq<Exchange>)
    requires forall i :: 0 <= i < |xs| ==> IsSuccess(xs[i].response)
    ensures multiset(DrainLoop(p, xs).sent) + multiset(DrainLoop(p, xs).plugin.queue.index) == multiset(p.queue.index)
    decreases |xs|
  {
    if |p.queue.index| > 0 && |xs| > 0 {
      var head := Peek(p.queue.index).value;
      var step := DrainStep(p, xs[0].response, xs[0].now);
      var next := step.plugin;
      SuccessStepSendsHead(p, xs[0]);
      if step.Continue? {
        AllSuccessSendsWhatLeaves(next, xs[1..]);
        var rest := DrainLoop(next, xs[1..]);
        assert DrainLoop(p, xs) == DrainRun(rest.exit, rest.plugin, [head] + rest.sent);
        assert multiset([head] + rest.sent) == multiset{head} + multiset(rest.sent);
      } else {
        assert DrainLoop(p, xs) == DrainRun(Aborted, next, [head]);
      }
    }
  }

  /** Against a transport that always answers 2xx, and with every config
      readable, as many turns as indexed entries empty the index. */
  lemma {:induction false} AllSuccessEmptiesIndex(p: Plugin, xs: seq<Exchange>)
    requires forall i :: 0 <= i < |xs| ==> IsSuccess(xs[i].response)
    requires AllConfigsReadable(p.queue.index)
    ensures |xs| >= |p.queue.index| ==> DrainLoop(p, xs).exit == Exhausted && DrainLoop(p, xs).plugin.queue.index == []
    decreases |xs|
  {
    if |p.queue.index| > 0 && |xs| > 0 {
      var head := Peek(p.queue.index).value;
      var step := DrainStep(p, xs[0].response, xs[0].now);
      var next := step.plugin;
      SuccessStepRemovesHead(p, xs[0]);
      AllSuccessEmptiesIndex(next, xs[1..]);
      var rest := DrainLoop(next, xs[1..]);
      assert DrainLoop(p, xs) == DrainRun(rest.exit, rest.plugin, [head] + rest.sent);
    }
  }

  /** Against a transport that always answers 2xx, no store row keeps the
      msg_id of an entry the drain sent, also when an unreadable config aborts
      the drain after its entry was dequeued. */
  lemma {:induction false} AllSuccessDeletesSentRows(p: Plugin, xs: seq<Exchange>)
    requires forall i :: 0 <= i < |xs| ==> IsSuccess(xs[i].response)
    ensures var run := DrainLoop(p, xs);
      forall e, row | e in run.sent && row in run.plugin.queue.store.rows :: row.msgId != e.msgId
    decreases |xs|
  {
    if |p.queue.index| > 0 && |xs| > 0 {
      var head := Peek(p.queue.index).value;
      SuccessStepDropsHeadRows(p, xs[0]);
      DrainLoopFirstTurn(p, xs);
      var step := DrainStep(p, xs[0].response, xs[0].now);
      var next := step.plugin;
      if step.Continue? {
        AllSuccessDeletesSentRows(next, xs[1..]);
        DeletedRowsStayDeleted(next, xs[1..], head.msgId);
        var rest := DrainLoop(next, xs[1..]);
        NoRowOfSent(head, rest.sent, rest.plugin.queue.store.rows);
      }
    }
  }

  /** A 2xx turn never halts and leaves no row with the head's msg_id. */
  lemma SuccessStepDropsHeadRows(p: Plugin, x: Exchange)
    requires |p.queue.index| > 0 && IsSuccess(x.response)
    ensures var r := DrainStep(p, x.response, x.now);
      && !r.Halt?
      && forall row | row in r.plugin.queue.store.rows :: row.msgId != Peek(p.queue.index).value.msgId
  {
  }

  /** Sending one more entry whose rows are already gone keeps every sent entry's rows gone. */
  lemma NoRowOfSent(head: Entry, sent: seq<Entry>, rows: seq<Row>)
    requires forall x | x in rows :: x.msgId != head.msgId
    requires forall e, row | e in sent && row in rows :: row.msgId != e.msgId
    ensures forall e, row | e in [head] + sent && row in rows :: row.msgId != e.msgId
  {
  }

  /** Once no row carries a msg_id, no later turn brings one back. */
  lemma {:induction false} DeletedRowsStayDeleted(p: Plugin, xs: seq<Exchange>, id: string)
    requires forall x | x in p.queue.store.rows :: x.msgId != id
    ensures forall x | x in DrainLoop(p, xs).plugin.queue.store.rows :: x.msgId != id
    decreases |xs|
  {
    if |p.queue.index| > 0 && |xs| > 0 {
      var step := DrainStep(p, xs[0].response, xs[0].now);
      var head := Peek(p.queue.index).value;
      assert forall x | x in step.plugin.queue.store.rows :: x in p.queue.store.rows by {
        var resp := xs[0].response;
        if IsSuccess(resp) || IsBadRequest(resp) {
          assert step.plugin.queue.store.rows == DeleteRows(p.queue.store.rows, head.msgId);
        }
      }
      if step.Continue? {
        DeletedRowsStayDeleted(step.plugin, xs[1..], id);
      }
    }
  }

  /** A transport that keeps answering null or an unhandled status makes the loop
      resend the same head forever: every turn sends it, and the index, the queue
      rows and the subscribers' deliveries never change. */
  lemma {:induction false} UnhandledStatusLivelocks(p: Plugin, xs: seq<Exchange>)
    requires |p.queue.index| > 0
    requires forall i :: 0 <= i < |xs| ==> IsUnhandled(xs[i].response)
    ensures var run := DrainLoop(p, xs);
      && run.exit == OutOfFuel
      && |run.sent| == |xs|
      && (forall i :: 0 <= i < |run.sent| ==> run.sent[i] == Peek(p.queue.index).value)
      && run.plugin.queue.index == p.queue.index
      && run.plugin.queue.store.rows == p.queue.store.rows
      && run.plugin.events == p.events
    decreases |xs|
  {
    if |xs| > 0 {
      var next := DrainStep(p, xs[0].response, xs[0].now).plugin;
      UnhandledStatusLivelocks(next, xs[1..]);
    }
  }

  /** A whole drain against a transport that answers 2xx at least once per
      seeded entry, with every seeded config readable: it sends every seeded
      entry exactly once, ends normally with nothing indexed and the flag
      cleared, and leaves no row of a sent entry behind. */
  lemma AllSuccessSyncSendsEverything(p: Plugin, xs: seq<Exchange>)
    requires forall i :: 0 <= i < |xs| ==> IsSuccess(xs[i].response)
    requires AllConfigsReadable(Seed(p.queue.index, p.queue.store.rows))
    requires |xs| >= |Seed(p.queue.index, p.queue.store.rows)|
    ensures var run := SyncNetworkQueue(p, xs);
      && run.exit == Exhausted
      && !run.plugin.isSyncing
      && run.plugin.queue.index == []
      && multiset(run.sent) == multiset(Seed(p.queue.index, p.queue.store.rows))
      && forall e, row | e in run.sent && row in run.plugin.queue.store.rows :: row.msgId != e.msgId
  {
    var seeded := p.(queue := p.queue.(index := Seed(p.queue.index, p.queue.store.rows)));
    AllSuccessEmptiesIndex(seeded, xs);
    AllSuccessSendsWhatLeaves(seeded, xs);
    AllSuccessDeletesSentRows(seeded, xs);
  }

  /** A drain whose first response is a network error halts after sending only
      the head, with the seeded index and the queue rows intact and the flag cleared. */
  lemma NetworkErrorAtOnceKeepsEverything(p: Plugin, now: Int64)
    requires Seed(p.queue.index, p.queue.store.rows) != []
    ensures var first := SyncNetworkQueue(p, [Exchange(Some(Response(-3, None)), now)]);
      && first.exit == Halted
      && !first.plugin.isSyncing
      && |first.sent| == 1
      && first.plugin.queue.store.rows == p.queue.store.rows
      && first.plugin.queue.index == Seed(p.queue.index, p.queue.store.rows)
  {
    var x := Exchange(Some(Response(-3, None)), now);
    var seeded := p.(queue := p.queue.(index := Seed(p.queue.index, p.queue.store.rows)));
    var step := DrainStep(seeded, x.response, x.now);
    assert step.Halt? && step.plugin.queue.index == seeded.queue.index
      && step.plugin.queue.store.rows == p.queue.store.rows;
    assert DrainLoop(seeded, [x]) == DrainRun(Halted, step.plugin, [Peek(seeded.queue.index).value]);
  }

  /** Starting from an empty index, a drain that meets a network error at once
      halts with every entry still indexed; the next drain's seed, which does not
      clear the index, then indexes each of those entries a second time. */
  lemma ResyncAfterNetworkErrorIndexesTwice(p: Plugin, now: Int64)
    requires p.queue.index == [] && |p.queue.store.rows| > 0 && AllParse(p.queue.store.rows)
    ensures var first := SyncNetworkQueue(p, [Exchange(Some(Response(-3, None)), now)]);
      forall e | e in ParseAll(p.queue.store.rows) ::
        multiset(Seed(first.plugin.queue.index, first.plugin.queue.store.rows))[e] >= 2
  {
    SeedAllParse([], p.queue.store.rows);
    NetworkErrorAtOnceKeepsEverything(p, now);
    SeedTwiceDuplicates(p.queue.store.rows);
  }
}

=== FILE: enqueue.dfy ===
/** The enqueue path of SyncPlugin: compose the row, store it, and decide whether
    to start a drain. */
module Enqueue {
  import opened Common
  import opened QueueEntry
  import opened Store
  import opened PriorityIndex

  /** The request descriptor the caller passes. `msgId` and `request` are `None`
      when the key is missing (`getString` throws); the other columns are as the
      queue will later read them. */
  datatype Descriptor = Descriptor(
    msgId: Option<string>,
    priority: Int32,
    itemCount: Int32,
    timestamp: Option<Int64>,
    config: ConfigText,
    request: Option<RequestText>)

  /** The three call arguments: the payload, the descriptor (`None` when absent
      or not a JSON object) and `shouldSync` (`None` when `getBoolean` throws;
      it also reads the strings "true" and "false" in any case). */
  datatype EnqueueArgs = EnqueueArgs(data: Option<Json>, descriptor: Option<Descriptor>, shouldSync: Option<bool>)

  datatype Reply = Success | Error

  /** The store after the call, what the caller is told, and whether a drain starts. */
  datatype Enqueued = Enqueued(store: Store, reply: Reply, triggersDrain: bool)

  /** Every argument is present and the embedded request text is a JSON object. */
  predicate WellFormed(args: EnqueueArgs) {
    && args.data.Some?
    && args.descriptor.Some?
    && args.shouldSync.Some?
    && args.descriptor.value.request.Some?
    && args.descriptor.value.msgId.Some?
    && args.descriptor.value.request.value.RequestJson?
  }

  /** The row `enqueue` stores: the descriptor with its request's body set to the payload. */
  function ComposeRow(d: Descriptor, data: Json): (row: Row)
    requires d.msgId.Some? && d.request.Some? && d.request.value.RequestJson?
    ensures row.msgId == d.msgId.value && row.priority == d.priority && row.itemCount == d.itemCount
    ensures row.timestamp == d.timestamp && row.config == d.config
    ensures row.request == d.request.value.(body := Some(data))
  {
    Row(d.msgId.value, d.priority, d.itemCount, d.timestamp, d.config, d.request.value.(body := Some(data)))
  }

  /** `enqueue`: on well-formed arguments, appends the composed row, replies
      success, and starts a drain exactly when none is running and `shouldSync`
      is true; any failure replies an error and changes nothing. */
  function Enqueue(store: Store, isSyncing: bool, args: EnqueueArgs): (r: Enqueued)
    ensures r.reply == Success <==> WellFormed(args)
    ensures r.reply == Error ==> r.store == store && !r.triggersDrain
    ensures r.reply == Success ==>
      && r.store.settings == store.settings
      && |r.store.rows| == |store.rows| + 1
      && r.store.rows[..|store.rows|] == store.rows
      && r.store.rows[|store.rows|] == ComposeRow(args.descriptor.value, args.data.value)
    ensures r.triggersDrain <==> WellFormed(args) && !isSyncing && args.shouldSync == Some(true)
  {
    if !WellFormed(args) then Enqueued(store, Error, false)
    else
      var row := ComposeRow(args.descriptor.value, args.data.value);
      Enqueued(store.(rows := store.rows + [row]), Success, !isSyncing && args.shouldSync.value)
  }

  /** A stored request parses back, on the next seed, into an entry whose body is
      the payload and whose id, priority and event count are the descriptor's,
      provided its timestamp is a number and its request text has no flaw. */
  lemma EnqueuedRowSeedsPayload(store: Store, isSyncing: bool, args: EnqueueArgs)
    requires WellFormed(args) && args.descriptor.value.timestamp.Some?
    ensures var r := Enqueue(store, isSyncing, args);
      var d := args.descriptor.value;
      var parsed := ParseRow(r.store.rows[|store.rows|]);
      && parsed.Returned?
      && parsed.value.request.body == args.data.value
      && parsed.value.msgId == d.msgId.value
      && parsed.value.priority == d.priority
      && parsed.value.eventCount == d.itemCount
      && parsed.value.config == Some(d.config)
  {
  }

  /** When every earlier row parses, the next seed from an empty index ends with
      the entry of the enqueued row. */
  lemma EnqueueThenSeed(store: Store, isSyncing: bool, args: EnqueueArgs)
    requires WellFormed(args) && args.descriptor.value.timestamp.Some?
    requires AllParse(store.rows)
    ensures var r := Enqueue(store, isSyncing, args);
      var seeded := Seed([], r.store.rows);
      && |seeded| == |store.rows| + 1
      && seeded[|store.rows|].request.body == args.data.value
      && seeded[|store.rows|].msgId == args.descriptor.value.msgId.value
  {
    var r := Enqueue(store, isSyncing, args);
    EnqueuedRowSeedsPayload(store, isSyncing, args);
    assert AllParse(r.store.rows) by {
      forall i | 0 <= i < |r.store.rows| ensures ParseRow(r.store.rows[i]).Returned? {
        if i < |store.rows| {
          assert r.store.rows[i] == r.store.rows[..|store.rows|][i];
        }
      }
    }
  }
}

=== FILE: events.dfy ===
/** Fan-out of the live sync event to the registered subscribers (consumeEvents). */
module Events {
  import opened Common

  /** The events the drain publishes: `{syncedEventCount: n}`,
      `{error: "BAD_REQUEST"}` and `{error: "NETWORK_ERROR"}`. */
  datatype Event = SyncedEventCount(count: Int32) | BadRequest | NetworkError

  /** A subscriber, identified by its registration. */
  type Handler = nat

  datatype Delivery = Delivery(handler: Handler, event: Event)

  /** The subscribers in registration order, the live event (`null` when none),
      and every delivery made so far. */
  datatype Publisher = Publisher(handlers: seq<Handler>, lastEvent: Option<Event>, delivered: seq<Delivery>)

  /** One delivery of `e` per handler, in list order. */
  function Fanout(handlers: seq<Handler>, e: Event): (ds: seq<Delivery>)
    ensures |ds| == |handlers|
    ensures forall i :: 0 <= i < |ds| ==> ds[i] == Delivery(handlers[i], e)
    decreases |handlers|
  {
    if |handlers| == 0 then [] else [Delivery(handlers[0], e)] + Fanout(handlers[1..], e)
  }

  /** `consumeEvents()`: with no handler or no live event, nothing happens and the
      live event is kept; otherwise every handler receives the live event, in list
      order, and the live event becomes `null`. */
  function ConsumeEvents(p: Publisher): (r: Publisher)
    ensures r.handlers == p.handlers
    ensures |p.handlers| == 0 || p.lastEvent.None? ==> r == p
    ensures |p.handlers| > 0 && p.lastEvent.Some? ==>
      && r.lastEvent.None?
      && |r.delivered| == |p.delivered| + |p.handlers|
      && r.delivered[..|p.delivered|] == p.delivered
      && forall i :: 0 <= i < |p.handlers| ==>
           r.delivered[|p.delivered| + i] == Delivery(p.handlers[i], p.lastEvent.value)
  {
    if |p.handlers| == 0 || p.lastEvent.None? then p
    else p.(lastEvent := None, delivered := p.delivered + Fanout(p.handlers, p.lastEvent.value))
  }

  /** Setting the live event and consuming it at once, as each drain branch does:
      one copy of the event per subscriber is appended and nothing else; without
      subscribers the event stays live for a later consume. */
  function Publish(p: Publisher, e: Event): (r: Publisher)
    ensures r.handlers == p.handlers
    ensures r.delivered == p.delivered + Fanout(p.handlers, e)
    ensures |p.handlers| > 0 ==> r.lastEvent.None?
    ensures |p.handlers| == 0 ==> r.lastEvent == Some(e)
  {
    ConsumeEvents(p.(lastEvent := Some(e)))
  }

  /** Registering a subscriber (the "onSyncSucces" action): it is added at the end. */
  function Subscribe(p: Publisher, h: Handler): (r: Publisher)
    ensures r.handlers == p.handlers + [h]
    ensures r.lastEvent == p.lastEvent && r.delivered == p.delivered
  {
    p.(handlers := p.handlers + [h])
  }

  /** A handler registered before a publish receives that event, whoever else is registered. */
  lemma SubscriberReceivesNextPublish(p: Publisher, h: Handler, e: Event)
    ensures Delivery(h, e) in Publish(Subscribe(p, h), e).delivered
  {
    var q := Subscribe(p, h);
    var r := Publish(q, e);
    assert r.delivered[|q.delivered| + |p.handlers|] == Delivery(h, e);
  }

  /** After a publish to at least one subscriber no event is live, and a second
      consume delivers nothing. */
  lemma ConsumeEventsIsIdempotent(p: Publisher)
    ensures ConsumeEvents(ConsumeEvents(p)) == ConsumeEvents(p)
    ensures |p.handlers| > 0 ==> ConsumeEvents(p).lastEvent.None?
  {
  }

  /** With subscribers, two publishes reach every subscriber with both events,
      the earlier event first, and nothing is lost between them. */
  lemma SuccessivePublishesDeliverInOrder(p: Publisher, e1: Event, e2: Event)
    requires |p.handlers| > 0
    ensures Publish(Publish(p, e1), e2).delivered
            == p.delivered + Fanout(p.handlers, e1) + Fanout(p.handlers, e2)
    ensures Publish(Publish(p, e1), e2).lastEvent.None?
  {
  }
}

=== FILE: priority_index.dfy ===
/** The in-memory priority index over the stored rows (NetworkQueueImpl).
    The index is kept in insertion order, and `HeadPos` breaks ties by taking
    the first entry of least priority. A java.util.PriorityQueue may pick a
    different entry among equal priorities, so `Peek`, `Dequeue` and the drain
    promise only "an entry of least priority". */
module PriorityIndex {
  import opened Common
  import opened QueueEntry
  import opened Store

  datatype Queue = Queue(index: seq<Entry>, store: Store)

  /** What `dequeue()` returns: always `null`. */
  datatype Dequeued = Dequeued(queue: Queue, returned: Option<Entry>)

  /** Turning one stored row into an entry, as the body of `seed`'s loop does.
      A request text that is not a JSON object, a request without "body" and a
      timestamp `Long.valueOf` rejects each throw. */
  function ParseRow(row: Row): (r: Outcome<Entry>)
    ensures r.Returned? <==> row.request.RequestJson? && row.request.body.Some? && row.timestamp.Some?
    ensures r.Returned? ==>
      && r.value.msgId == row.msgId
      && r.value.priority == row.priority
      && r.value.eventCount == row.itemCount
      && r.value.timestamp == row.timestamp.value
      && r.value.config == Some(row.config)
      && r.value.request == Request(row.request.host, row.request.path, row.request.requestType,
                                    row.request.headers, row.request.serializer, row.request.body.value)
  {
    match row.request
    case MalformedRequest => Threw(JSONException)
    case RequestJson(host, path, requestType, headers, serializer, body) =>
      if body.None? then Threw(JSONException)
      else if row.timestamp.None? then Threw(NumberFormatException)
      else
        var request := Request(host, path, requestType, headers, serializer, body.value);
        Returned(Entry(row.msgId, row.priority, row.timestamp.value, Some(row.config), row.itemCount, request))
  }

  predicate AllParse(rows: seq<Row>) {
    forall i :: 0 <= i < |rows| ==> ParseRow(rows[i]).Returned?
  }

  /** The entries of rows that all parse, in row order. */
  function ParseAll(rows: seq<Row>): (es: seq<Entry>)
    requires AllParse(rows)
    ensures |es| == |rows|
    ensures forall i :: 0 <= i < |rows| ==> ParseRow(rows[i]) == Returned(es[i])
    decreases |rows|
  {
    if |rows| == 0 then [] else [ParseRow(rows[0]).value] + ParseAll(rows[1..])
  }

  /** `seed()`: appends one entry per row to the index, which it does not clear.
      The first row that fails to parse ends the loop: the rows before it stay
      added and none after it is added. */
  function Seed(index: seq<Entry>, rows: seq<Row>): (r: seq<Entry>)
    ensures |index| <= |r| <= |index| + |rows|
    ensures r[..|index|] == index
    ensures forall i :: |index| <= i < |r| ==> ParseRow(rows[i - |index|]) == Returned(r[i])
    ensures |r| < |index| + |rows| ==> ParseRow(rows[|r| - |index|]).Threw?
    decreases |rows|
  {
    if |rows| == 0 then index
    else match ParseRow(rows[0])
      case Threw(_) => index
      case Returned(e) => Seed(index + [e], rows[1..])
  }

  /** A row that fails to parse bounds what a seed can add: nothing at or after it is indexed. */
  lemma {:induction false} SeedStopsAtFailure(index: seq<Entry>, rows: seq<Row>, k: nat)
    requires k < |rows| && ParseRow(rows[k]).Threw?
    ensures |Seed(index, rows)| <= |index| + k
    decreases k
  {
    if k > 0 && ParseRow(rows[0]).Returned? {
      assert rows[1..][k - 1] == rows[k];
      SeedStopsAtFailure(index + [ParseRow(rows[0]).value], rows[1..], k - 1);
    }
  }

  /** When every row parses, seeding adds exactly those rows' entries after the old ones. */
  lemma SeedAllParse(index: seq<Entry>, rows: seq<Row>)
    requires AllParse(rows)
    ensures Seed(index, rows) == index + ParseAll(rows)
  {
    var r := Seed(index, rows);
    assert |r| == |index| + |rows|;
    assert forall i :: 0 <= i < |r| ==> r[i] == (index + ParseAll(rows))[i] by {
      forall i | 0 <= i < |r| ensures r[i] == (index + ParseAll(rows))[i] {
        if i < |index| { assert r[..|index|][i] == r[i]; }
      }
    }
  }

  /** Seeding twice from the same rows indexes every entry of those rows at least twice. */
  lemma {:induction false} SeedTwiceDuplicates(rows: seq<Row>)
    requires AllParse(rows)
    ensures forall e | e in ParseAll(rows) :: multiset(Seed(Seed([], rows), rows))[e] >= 2
  {
    var es := ParseAll(rows);
    SeedAllParse([], rows);
    SeedAllParse(es, rows);
    assert multiset(Seed(Seed([], rows), rows)) == multiset(es) + multiset(es);
    forall e | e in es ensures multiset(Seed(Seed([], rows), rows))[e] >= 2 {
      assert e in multiset(es);
    }
  }

  /** `e` has the least priority among the entries of `index`. */
  predicate IsLeast(e: Entry, index: seq<Entry>) {
    forall i :: 0 <= i < |index| ==> e.priority <= index[i].priority
  }

  /** The position of the head: the first entry of least priority. */
  function HeadPos(index: seq<Entry>): (k: nat)
    requires |index| > 0
    ensures k < |index|
    ensures IsLeast(index[k], index)
    ensures forall i :: 0 <= i < k ==> index[i].priority > index[k].priority
    decreases |index|
  {
    if |index| == 1 then 0
    else
      var k := HeadPos(index[1..]);
      if index[0].priority <= index[1..][k].priority then 0 else k + 1
  }

  /** `peek()`: an entry of least priority, or `null` on an empty index. */
  function Peek(index: seq<Entry>): (r: Option<Entry>)
    ensures r.None? <==> |index| == 0
    ensures r.Some? ==> r.value in index && IsLeast(r.value, index)
  {
    if |index| == 0 then None else Some(index[HeadPos(index)])
  }

  /** `dequeue()`: polls the head and deletes its store row by msg_id. On an empty
      index `poll` yields null, the call on it throws, and the exception is
      swallowed, so nothing changes. The result is always `null`. */
  function Dequeue(q: Queue): (r: Dequeued)
    ensures r.returned.None?
    ensures |q.index| == 0 ==> r.queue == q
    ensures |q.index| > 0 ==>
      var head := Peek(q.index).value;
      && multiset(r.queue.index) == multiset(q.index) - multiset{head}
      && |r.queue.index| == |q.index| - 1
      && r.queue.store == Delete(q.store, GetId(head))
  {
    if |q.index| == 0 then Dequeued(q, None)
    else
      var k := HeadPos(q.index);
      var head := q.index[k];
      RemoveAtMultiset(q.index, k);
      Dequeued(Queue(q.index[..k] + q.index[k + 1..], Delete(q.store, GetId(head))), None)
  }

  /** `getSize()`: the number of indexed entries, duplicates included. */
  function GetSize(q: Queue): (r: nat)
    ensures r == |multiset(q.index)|
  {
    |q.index|
  }

  /** The size grows by one per row a seed parses and shrinks by one per dequeue
      from a non-empty index. */
  lemma GetSizeTracksSeedAndDequeue(q: Queue, rows: seq<Row>)
    requires AllParse(rows)
    ensures GetSize(q.(index := Seed(q.index, rows))) == GetSize(q) + |rows|
    ensures |q.index| > 0 ==> GetSize(Dequeue(q).queue) == GetSize(q) - 1
  {
    SeedAllParse(q.index, rows);
  }

  /** A dequeue removes the stored row the head was seeded from: `getId()` is
      that row's msg_id, and every row carrying it is deleted. */
  lemma DequeueDeletesHeadRow(q: Queue, row: Row)
    requires |q.index| > 0
    requires ParseRow(row) == Returned(Peek(q.index).value)
    ensures GetId(Peek(q.index).value) == row.msgId
    ensures row !in Dequeue(q).queue.store.rows
  {
  }

  /** `isEmpty()`: the size is zero, which is to say nothing is indexed. */
  function IsEmpty(q: Queue): (r: bool)
    ensures r <==> q.index == []
    ensures r <==> GetSize(q) == 0
  {
    GetSize(q) == 0
  }
}

=== FILE: queue_entry.dfy ===
/** One queued network request (NetworkQueueModel) and its ordering. */
module QueueEntry {
  import opened Common

  /** The HTTP intent carried by an entry. `body` is whatever JSON the caller enqueued. */
  datatype Request = Request(
    host: string,
    path: string,
    requestType: string,
    headers: Option<map<string, Json>>,
    serializer: string,
    body: Json)

  /** The stored `config` text, abstracted to what `new JSONObject(text)` makes
      of it: the object it denotes, or a parse failure. */
  datatype ConfigText = ConfigJson(fields: map<string, Json>) | MalformedConfig

  /** A queued entry. The constructor the queue calls takes no `type`, so an
      entry carries none; `config` is `None` when the stored text is `null`. */
  datatype Entry = Entry(
    msgId: string,
    priority: Int32,
    timestamp: Int64,
    config: Option<ConfigText>,
    eventCount: Int32,
    request: Request)

  /** `getId()`: the message id, which is also the key of the entry's store row. */
  function GetId(e: Entry): (r: string)
    ensures r == e.msgId
  {
    e.msgId
  }

  /** `getConfig()`: null for a null config, the parsed object otherwise, and a
      JSONException when the text is not a JSON object. */
  function GetConfig(e: Entry): (r: Outcome<Option<map<string, Json>>>)
    ensures r == Returned(None) <==> e.config.None?
    ensures r.Threw? <==> e.config == Some(MalformedConfig)
    ensures r.Returned? && r.value.Some? ==> e.config == Some(ConfigJson(r.value.value))
  {
    match e.config
    case None => Returned(None)
    case Some(ConfigJson(fields)) => Returned(Some(fields))
    case Some(MalformedConfig) => Threw(JSONException)
  }

  /** `compareTo`: the sign of the priority difference; nothing else is looked at. */
  function CompareTo(a: Entry, b: Entry): (r: int)
    ensures r == -1 <==> a.priority < b.priority
    ensures r == 1 <==> a.priority > b.priority
    ensures r == 0 <==> a.priority == b.priority
  {
    if b.priority < a.priority then 1
    else if b.priority > a.priority then -1
    else 0
  }

  /** `a` is served no later than `b`. */
  predicate Precedes(a: Entry, b: Entry) {
    CompareTo(a, b) <= 0
  }

  /** Only the priorities matter: id, timestamp, config and request never break a tie. */
  lemma CompareToIgnoresOtherFields(a: Entry, a': Entry, b: Entry, b': Entry)
    requires a.priority == a'.priority && b.priority == b'.priority
    ensures CompareTo(a, b) == CompareTo(a', b')
  {
  }

  /** Swapping the arguments negates the result. */
  lemma CompareToAntisymmetric(a: Entry, b: Entry)
    ensures CompareTo(a, b) == -CompareTo(b, a)
  {
  }

  /** `Precedes` is a total preorder: reflexive, transitive and total. */
  lemma PrecedesIsTotalPreorder()
    ensures forall a :: Precedes(a, a)
    ensures forall a, b, c :: Precedes(a, b) && Precedes(b, c) ==> Precedes(a, c)
    ensures forall a, b :: Precedes(a, b) || Precedes(b, a)
  {
  }

  /** Two different entries can compare equal: the order is not antisymmetric on entries. */
  lemma TiesBetweenDistinctEntries(a: Entry)
    ensures var b := a.(msgId := a.msgId + "'"); b != a && CompareTo(a, b) == 0
  {
    var b := a.(msgId := a.msgId + "'");
    assert |b.msgId| != |a.msgId|;
  }
}

=== FILE: store.dfy ===
/** The persistent store the queue reads and writes, as an abstract value:
    the rows of the network queue table in table order, and the key/value
    settings table ("no_sql") that holds small flags. */
module Store {
  import opened Common
  import opened QueueEntry

  /** The serialized `request` column, abstracted to what `new JSONObject(text)`
      and the `optString`/`optJSONObject` readers make of it. `body` is `None`
      when the object has no "body" key, which makes `get("body")` throw. */
  datatype RequestText =
    | RequestJson(
        host: string,
        path: string,
        requestType: string,
        headers: Option<map<string, Json>>,
        serializer: string,
        body: Option<Json>)
    | MalformedRequest

  /** One row of the queue table, each column as its reader sees it.
      `timestamp` is `None` when `Long.valueOf` rejects the stored text. */
  datatype Row = Row(
    msgId: string,
    priority: Int32,
    itemCount: Int32,
    timestamp: Option<Int64>,
    config: ConfigText,
    request: RequestText)

  datatype Setting = Setting(key: string, value: string)

  datatype Store = Store(rows: seq<Row>, settings: seq<Setting>)

  /** `delete(id)`: every row whose msg_id is `id` goes; the others stay, in order. */
  function DeleteRows(rows: seq<Row>, id: string): (r: seq<Row>)
    ensures forall x :: x in r <==> x in rows && x.msgId != id
    ensures forall x :: multiset(r)[x] == if x.msgId == id then 0 else multiset(rows)[x]
    ensures |r| <= |rows|
    ensures (forall x | x in rows :: x.msgId != id) ==> r == rows
    decreases |rows|
  {
    if |rows| == 0 then []
    else
      FirstAndRestMultiset(rows);
      if rows[0].msgId == id then DeleteRows(rows[1..], id)
      else [rows[0]] + DeleteRows(rows[1..], id)
  }

  /** The survivors keep their order: deleting from two stretches of the table
      one after the other gives the survivors of the first, then those of the
      second. With the copy counts above this fixes the result completely. */
  lemma {:induction false} DeleteRowsKeepsOrder(a: seq<Row>, b: seq<Row>, id: string)
    ensures DeleteRows(a + b, id) == DeleteRows(a, id) + DeleteRows(b, id)
    decreases |a|
  {
    if |a| == 0 {
      assert a + b == b;
    } else {
      var ab := a + b;
      assert ab[0] == a[0] && ab[1..] == a[1..] + b;
      DeleteRowsKeepsOrder(a[1..], b, id);
      var tail := DeleteRows(a[1..], id) + DeleteRows(b, id);
      if a[0].msgId == id {
        assert DeleteRows(ab, id) == tail;
      } else {
        assert DeleteRows(ab, id) == [a[0]] + tail;
        assert DeleteRows(a, id) == [a[0]] + DeleteRows(a[1..], id);
      }
    }
  }

  /** `delete(id)` on the store: the queue rows lose exactly the rows with that
      msg_id, every other row keeps its copies, and the settings table is untouched. */
  function Delete(s: Store, id: string): (r: Store)
    ensures r.settings == s.settings
    ensures forall x :: x in r.rows <==> x in s.rows && x.msgId != id
    ensures forall x :: multiset(r.rows)[x] == if x.msgId == id then 0 else multiset(s.rows)[x]
  {
    s.(rows := DeleteRows(s.rows, id))
  }

  /** The position of the first settings row with `key`, or the table's length when none has it. */
  function FirstKeyPos(settings: seq<Setting>, key: string): (k: nat)
    ensures k <= |settings|
    ensures k < |settings| ==> settings[k].key == key
    ensures forall j :: 0 <= j < k ==> settings[j].key != key
    decreases |settings|
  {
    if |settings| == 0 || settings[0].key == key then 0
    else 1 + FirstKeyPos(settings[1..], key)
  }

  /** `read` of the settings table for one key, reduced to what the plugin uses:
      the value of the first matching row, or `None` when no row matches. */
  function ReadFirst(settings: seq<Setting>, key: string): (r: Option<string>)
    ensures r.None? <==> forall i :: 0 <= i < |settings| ==> settings[i].key != key
    ensures r.Some? ==> exists i :: 0 <= i < |settings| && settings[i] == Setting(key, r.value)
                                    && forall j :: 0 <= j < i ==> settings[j].key != key
  {
    var k := FirstKeyPos(settings, key);
    if k == |settings| then None else Some(settings[k].value)
  }

  /** Appending to the settings table leaves the first value of every key as it
      was, unless the key was absent and the new row carries it. */
  lemma {:induction false} ReadFirstAfterAppend(settings: seq<Setting>, s: Setting, key: string)
    requires ReadFirst(settings, key).Some? || s.key != key
    ensures ReadFirst(settings + [s], key) == ReadFirst(settings, key)
  {
    var longer := settings + [s];
    var k := FirstKeyPos(settings, key);
    var k' := FirstKeyPos(longer, key);
    assert forall j :: 0 <= j < |settings| ==> longer[j] == settings[j];
    if k < |settings| {
      assert longer[k].key == key;
      assert k' == k;
    } else {
      assert longer[|settings|].key != key;
      assert k' == |longer|;
    }
  }
}
